=== FILE: README.md ===
# Quest board engine, in Dafny

A model of the state engine behind a gamified to-do board ("quests"). Users
create quests with a title, a due date and time and an optional reminder
offset. Creating a quest earns 5 XP and completing one earns 10 XP. Undoing a
completion takes the 10 XP back, but XP never drops below 0. Every 100 XP is
a level. A streak counts consecutive days with a completion. Reminder timers
fire toasts before quests fall due.

The whole engine is written as pure functions over an explicit state:
`State(tasks, xp, streak, lastCompletedDate, activeReminders)`. The clock is
a parameter `now`, an instant in milliseconds. Calendar days are integers.
The date parser (`new Date("YYYY-MM-DDTHH:MM")`) is also a parameter,
`parse: string -> Option<int>`, so the model makes no assumption about
calendar arithmetic. Only the empty-input guard of `buildDateTime` is fixed.

Modules, one per concern of `src/App.jsx` and `src/components/TaskList.jsx`:

- `Optional`: `Option`, standing for JavaScript's `null`/`undefined`.
- `Decimal`: the decimal text of integers (template literals) and its inverse.
- `Clock`: `BuildDateTime` over an abstract parser, and the UTC day of an instant.
- `Quest`: `Task`, `Reminder`, `State`, the reminder drop-down, `normalizeReminder`, `reminderLabel` and reminder-toast ids.
- `Engine`: `addTask`, `toggleTask`, `deleteTask`, toast firing and dismissal, level, progress and completed count. It also defines `Consistent`, the invariant of every state reached from `Initial` when each quest is created at an unused instant (the requires of `AddPreservesConsistent`).
- `Scheduler`: the reminder-timer derivation, as a function `Schedule(parse, tasks, now): map<id, delay>` and as the imperative rebuild loop.
- `Display`: the `sortedTasks` order, as a stable insertion sort.
- `Status`: the card's "Overdue"/"Due soon" chips and its reward text.
- `Storage`: start-up loading with per-key fallback, and the save effects.

Points where the code behaves differently from what one might expect:

- "today" and "yesterday" come from `toISOString()`, which gives the **UTC**
  day, not the local day. The model uses `UtcDay(now) = now / 86400000` and
  proves that the day of `now - 86400000` is always `UtcDay(now) - 1`.
- There is no reschedule operation. `TaskList` reads `onReschedule` and
  `onDelete` (src/components/TaskList.jsx:25), but the app passes
  `deleteTask` under another name (src/App.jsx:346-352). So the menu's
  Delete entry reaches an undefined handler. `deleteTask` is modelled as the
  app defines it.
- `toggleTask` picks completion or undo from the *first* task with the id,
  but flips *every* task with that id. Ids come from `Date.now()` and are not
  guaranteed distinct. Lemmas that need distinct ids say so with
  `UniqueIds`.
- The timer table is a `Map` keyed by task id. With a repeated id, the later
  task's timer replaces the earlier one's entry (`ScheduleValue`). The earlier
  timer keeps running with no handle left to clear it (see "## Findings").
- `Consistent` is not kept by every path. Two quests submitted at the same
  instant share an id. A load whose parse throws starts from streak 0, and the
  save effect then writes streak 0 next to the old completion day, which
  loads as a streak of 0 with a recorded day.
- `xp % 100` uses JavaScript's truncating remainder (`JsRemainder`). This
  differs from Dafny's `%` only for negative XP, which only a hand-edited
  store can produce.
- The two `buildDateTime` copies (src/App.jsx:25-30 and
  src/components/TaskList.jsx:3-8) are identical, so the model defines one:
  `Clock.BuildDateTime`.

## Model

| member | source | states |
|---|---|---|
| Quest.NormalizeReminder | src/App.jsx:32-36 | "none" means no reminder; any reminder obtained is a non-negative number of minutes |
| Quest.NormalizeReminderRoundTrip | src/App.jsx:32-36 | the decimal text of any whole number of minutes normalises back to that number |
| Quest.ReminderLabel | src/App.jsx:18-23 | definition of the chip text; "No reminder" exactly for no offset; see ReminderOptionsAgree |
| Quest.ReminderOptionsAgree | src/App.jsx:9-23 | reminderLabel maps each choice's normalised value back to that choice's caption (the card shows no chip for "No reminder") |
| Quest.ReminderIdPrefix | src/App.jsx:121 | the prefix `${id}-` starts the id of a toast fired for task `taskId` exactly when `id == taskId` |
| Quest.ReminderId | src/App.jsx:121 | definition of a toast id: the task id's text, a dash, then the firing instant's text; see ReminderIdPrefix, DeleteCascade |
| Clock.BuildDateTime | src/App.jsx:25-30 | definition: no due instant without both a date and a time, otherwise whatever the parser makes of `date + "T" + time`; the copy at src/components/TaskList.jsx:3-8 is the same |
| Clock.UtcDay | src/App.jsx:192-195 | definition of the UTC day: the instant lies within that day's 86400000 ms; see YesterdayIsPreviousDay |
| Clock.YesterdayIsPreviousDay | src/App.jsx:192-195 | the day printed for `now - 86400000` is the day before the one printed for `now` |
| Engine.AddTask | src/App.jsx:162-188 | with an empty title, date or time nothing changes and `requestNotificationPermission` is not called. Otherwise exactly one open task is appended (id = now, reminder normalised), the earlier tasks are unchanged, XP rises by exactly 5, the form is cleared, and `requestNotificationPermission` is called iff a reminder was set |
| Engine.AddPreservesConsistent | src/App.jsx:162-188 | creating a quest under an unused id keeps the invariant `Consistent` |
| Engine.AddThenDelete | src/App.jsx:182-227 | deleting the quest just created restores the task list; the creation XP is kept |
| Engine.FirstIndex | src/App.jsx:197-198 | finds the first task with the id, and finds none exactly when no task has it |
| Engine.Flip | src/App.jsx:216-220 | same length; exactly the tasks with the id have `completed` inverted |
| Engine.ToggleTask | src/App.jsx:191-221 | an unknown id changes nothing; only `completed` of the tasks with the id changes; a completion adds 10 XP, keeps the streak on the same day, extends it from yesterday and resets it to 1 otherwise, and records today; an undo sets XP to max(0, xp-10) and leaves streak and day alone |
| Engine.ToggleTwice | src/App.jsx:200-220 | toggling twice restores the task list and, from non-negative XP, the XP of a completion, but not the streak or day the completion set; undo-then-redo gives max(xp, 10) |
| Engine.TogglePreservesConsistent | src/App.jsx:200-220 | toggling keeps the invariant, and in a consistent state an undo always costs exactly 10 XP |
| Engine.WithoutId | src/App.jsx:224 | the kept tasks are exactly those whose id differs |
| Engine.WithoutIdAppend | src/App.jsx:224 | the filter distributes over concatenation, so the kept tasks stay in their original order |
| Engine.WithoutPrefix | src/App.jsx:225-227 | the kept toasts are exactly those whose id does not start with the prefix |
| Engine.WithoutPrefixAppend | src/App.jsx:225-227 | the toast filter distributes over concatenation, so the kept toasts stay in order and keep their number |
| Engine.DeleteTask | src/App.jsx:223-228 | removes exactly the tasks with the id and the toasts prefixed `${id}-`; XP, streak and day are unchanged; with `WithoutIdAppend` and `WithoutPrefixAppend`, what remains keeps its order |
| Engine.DeleteIdempotent | src/App.jsx:223-228 | deleting twice is the same as deleting once |
| Engine.DeleteCascade | src/App.jsx:223-228 | a toast fired for task `taskId` survives deleting `id` exactly when `taskId != id` |
| Engine.DeletePreservesConsistent | src/App.jsx:223-228 | deleting keeps the invariant `Consistent` |
| Engine.FireReminder | src/App.jsx:119-128 | the fired toast, a snapshot of the task with id `${task.id}-${firedAt}`, goes on top; nothing else changes |
| Engine.WithoutReminderId | src/App.jsx:371-373 | the kept toasts are exactly those with a different id |
| Engine.WithoutReminderIdAppend | src/App.jsx:371-373 | the dismiss filter distributes over concatenation, so the remaining toasts keep their order and number |
| Engine.DismissReminder | src/App.jsx:370-374 | the kept toasts are exactly those with a different id, in their order (`WithoutReminderIdAppend`); nothing else changes |
| Engine.FireThenDismiss | src/App.jsx:370-374 | dismissing a freshly fired toast whose id was unused restores the state |
| Engine.InitialConsistent | src/App.jsx:44-48 | the initial state satisfies the invariant `Consistent` |
| Engine.JsRemainder | src/App.jsx:231 | the remainder takes the dividend's sign: a = (a / b) * b + r with r in [0, b) for a >= 0, and a = -((-a) / b) * b + r with r in (-b, 0] for a < 0 |
| Engine.CompletedCount | src/App.jsx:232 | the count is at most the number of tasks, and 0 exactly when no task is completed |
| Engine.Level | src/App.jsx:230 | definition: level n covers XP from (n-1)*100 up to n*100; see LevelDecomposition, LevelMonotone |
| Engine.LevelProgress | src/App.jsx:231 | definition: for non-negative XP, the XP in [0, 100) above the level's start; see LevelDecomposition |
| Engine.XpToLevelUp | src/App.jsx:286 | definition: for non-negative XP, 1..100 XP remain, and adding them reaches the next level exactly; see LevelExample |
| Engine.LevelDecomposition | src/App.jsx:230-231 | for xp >= 0: level >= 1, 0 <= progress < 100, xp = (level-1)*100 + progress, and 1..100 XP remain to the next level |
| Engine.LevelExample | src/App.jsx:230-231 | 250 XP is level 3 with progress 50 and 50 XP to go |
| Engine.LevelMonotone | src/App.jsx:230 | more XP never shows a lower level |
| Scheduler.ReminderDelay | src/App.jsx:105-116 | a timer is set iff the task is open, has a reminder and a valid due instant, and due - minutes*60000 - now > 0; the delay is exactly that value |
| Scheduler.Schedule | src/App.jsx:105-137 | every delay in the timer table is positive |
| Scheduler.ScheduleDomain | src/App.jsx:105-137 | an id is in the table exactly when some task with that id gets a timer |
| Scheduler.ScheduleValue | src/App.jsx:105-137 | an id's entry is the delay of the last task with that id that gets a timer |
| Scheduler.ScheduleValueUnique | src/App.jsx:105-137 | with distinct ids, every eligible task's entry is its own delay |
| Scheduler.Timers | src/App.jsx:105-135 | every delay is positive, and there are never more timers than tasks |
| Scheduler.TimersOne | src/App.jsx:105-118 | a single task starts one timer, with its own id and delay, exactly when it is eligible, and none otherwise |
| Scheduler.TimersAppend | src/App.jsx:105-135 | the timers of a concatenation are the timers of each part in turn; with `TimersOne`, one timer per eligible task in list order, repeated ids included |
| Scheduler.Rebuild | src/App.jsx:99-138 | the effect clears every timer recorded in the table, starts exactly the timers `Timers` lists, and records exactly the table `Schedule` describes, whatever the old table was; rebuilding from the same tasks and instant always gives the same table |
| Scheduler.RepeatedIdLeaksTimer | src/App.jsx:118-137 | two eligible tasks with one id start two timers but the table records one handle |
| Scheduler.TableAtMostTimers | src/App.jsx:118-137 | the table never records more ids than timers were started |
| Scheduler.DistinctIdsNoLeak | src/App.jsx:118-137 | with distinct ids, the table records a handle for every timer started |
| Scheduler.RebuildAll | src/App.jsx:102-137 | the corrected rebuild clears every timer it recorded and records every timer it starts, at least as many as the id table holds |
| Scheduler.FireInstantFixed | src/App.jsx:112-114 | rebuild instant plus delay is the reminder instant, whenever the rebuild happens |
| Scheduler.ScheduleLater | src/App.jsx:102-116 | with distinct ids, a later rebuild keeps a subset of the timers, each shorter by the time elapsed; missed reminders are not back-filled |
| Scheduler.FifteenMinuteExample | src/App.jsx:112-116 | a 15-minute reminder gets a 5-minute timer 20 minutes before due, and none 10 minutes before due |
| Display.Insert | src/App.jsx:240-245 | insertion adds exactly the one task to the multiset |
| Display.InsertSorted | src/App.jsx:240-245 | inserting into a list in comparator order keeps it in order |
| Display.SortTasks | src/App.jsx:239-246 | the result is a permutation of the tasks; every open task precedes every completed one; within each group due instants never decrease, a missing due instant counting as 0 |
| Display.InsertStable | src/App.jsx:240-245 | insertion keeps the relative order of the tasks sharing a key |
| Display.SortStable | src/App.jsx:239-246 | the tasks sharing any one key keep their input order (stability) |
| Display.SortExample | src/App.jsx:239-246 | open A (10:00), completed B (09:00) and open C (08:00) display as C, A, B |
| Status.IsOverdue | src/components/TaskList.jsx:39-42 | definition: open, valid due instant, due instant before now; see ChipsExclusive, NoChip, OverdueHasNoTimer |
| Status.IsSoon | src/components/TaskList.jsx:39-47 | definition: open, valid due instant, due within (now, now + 1 hour]; see ChipsExclusive, NoChip, SoonReminders |
| Status.ChipsExclusive | src/components/TaskList.jsx:39-47 | no task is both overdue and due soon |
| Status.NoChip | src/components/TaskList.jsx:39-47 | completed tasks, tasks without a valid due instant and tasks due exactly now show neither chip |
| Status.OverdueHasNoTimer | src/components/TaskList.jsx:39-42 | an overdue task with a non-negative reminder offset never has a reminder timer |
| Status.SoonReminders | src/components/TaskList.jsx:43-47 | a task due within the hour has no timer for an offset of an hour or more, and an "at start time" reminder's delay equals the time left |
| Status.RewardLabel | src/components/TaskList.jsx:87 | definition: "Completed" exactly for a completed task, otherwise the XP a completion adds; see RewardLabelIsHonest |
| Status.RewardLabelIsHonest | src/components/TaskList.jsx:87 | an open task advertises "+N XP" where N is exactly the XP completing it adds; a completed one shows "Completed" |
| Storage.Load | src/App.jsx:63-80 | any value that fails to parse leaves the whole state at its defaults; otherwise each key takes its stored value or, when absent or mistyped, its own default; there are never toasts after loading |
| Storage.Save | src/App.jsx:83-96 | definition of the save effects: a stored completion day is never erased, and the day stored is the state's or the old one; see SaveLoadRoundTrip |
| Storage.SaveLoadRoundTrip | src/App.jsx:83-96 | loading what was saved gives back the state without toasts, unless the state has no completion day and the store still holds an old one, which then comes back |
| Storage.EmptyStoreLoadsInitial | src/App.jsx:63-80 | an empty store loads as the initial state |

## Findings

| source | as written | input that shows it | evidently intended | confidence | as-written member | corrected member |
|---|---|---|---|---|---|---|
| src/App.jsx:118-137 | every eligible task starts a timer, but the handle is stored with `reminderTimers.current.set(task.id, …)`, so a later task with the same id overwrites the earlier handle; lines 102-103 and 141-142 clear only stored handles | two open tasks with the same id (a system clock stepped back so that `Date.now()` repeats a stored id, or an edited store), both with a future reminder: two timers start, one handle is stored, and the other timer fires its toast even after the task is completed or deleted; each rebuild leaks one more | every started timer is cleared at the next rebuild | not executed | Scheduler.RepeatedIdLeaksTimer | Scheduler.RebuildAll |

## Left out

- React machinery: hooks, effect scheduling, the `isLoaded` gate and re-render timing. The model has the state transitions only.
- Real timers, `clearTimeout`, and the Notification API: the permission request, its status and desktop notifications. These are browser effects. `AddTask` only reports whether `requestNotificationPermission` is called; that function itself returns early when notifications are unsupported or already granted (src/App.jsx:147-151).
- Browser `setTimeout` converts the delay to a 32-bit signed integer, which wraps rather than clamps. A delay from 2^31 to 2^32-1 ms becomes negative and fires at once; a larger delay fires after (delay mod 2^32) ms. A reminder more than about 24.8 days ahead therefore fires early in a real browser. This is platform behaviour outside the derivation, so it is not modelled.
- Scheduler.Rebuild: the as-written effect clears only the timers recorded in its table. With repeated task ids, the earlier timers it started are never cleared and still fire. `Rebuild` returns them in `started`, but the model has no timer that fires later (see "## Findings").
- Engine.ToggleTask: the app reads the clock twice, at src/App.jsx:192 and src/App.jsx:193. Across UTC midnight `yesterday` can then come out equal to `today`, and a streak that should extend is reset to 1. The reminder loop also reads `Date.now()` once per task (src/App.jsx:114). The model uses one instant `now` per operation, so it does not show these effects.
- Concrete date parsing and locale formatting (`formatDateTime`). The parser is a parameter.
- JSON encoding and the storage API. `Storage` works on already-parsed values. It assumes a stored task array holds well-formed tasks, that stored XP and streak are integers (src/App.jsx:71-72 accept any JSON number, fractions and the `Infinity` of `1e999` included), and that the stored completion day is a day number (any other non-empty string acts like a day other than today or yesterday).
- Quest.JsNumber: reads only "" (as 0) and plain ASCII digit strings. Other strings that JavaScript's `Number` accepts (signs, decimals, exponents, hex, surrounding whitespace, "Infinity") are treated as NaN. The drop-down only offers "none" and digit strings.
- Decimal.IntToString: plain decimal notation. JavaScript switches to exponent notation at 1e21, far beyond any `Date.now()` id.
- The XP, streak and reminder offset are unbounded integers. JavaScript numbers are doubles, which hold every integer these operations reach exactly.
- Rescheduling: the code has no such operation.
- `src/components/TaskMenu.jsx` (dropdown, animation, click-outside listener), `src/components/TaskForm.jsx` (input binding only), and all markup.

=== FILE: clock.dfy ===
/** The clock and the date parser, both supplied from outside the model. */
module Clock {
  import opened Optional

  const MsPerMinute: int := 60 * 1000
  const MsPerDay: int := 86400000

  /** What `new Date(text).getTime()` yields for a `YYYY-MM-DDTHH:MM` text:
      an instant in milliseconds, or None when the result is NaN. The parser
      is a parameter, so nothing is assumed about calendar arithmetic. */
  type DateParser = string -> Option<int>

  /** buildDateTime: no due instant when the date or the time is empty,
      otherwise whatever the parser makes of `date + "T" + time`. */
  function BuildDateTime(parse: DateParser, date: string, time: string): (r: Option<int>)
    ensures r.Some? ==> date != [] && time != []
    ensures date != [] && time != [] ==> r == parse(date + "T" + time)
  {
    if date == [] || time == [] then None else parse(date + "T" + time)
  }

  /** The calendar day (UTC) of an instant: the day `toISOString` prints. */
  function UtcDay(now: int): (d: int)
    ensures d * MsPerDay <= now < (d + 1) * MsPerDay
  {
    now / MsPerDay
  }

  /** The day printed for `now - 86400000` is the day before the one printed
      for `now`, whatever the instant within the day. */
  lemma YesterdayIsPreviousDay(now: int)
    ensures UtcDay(now - MsPerDay) == UtcDay(now) - 1
  {
  }

}

=== FILE: decimal.dfy ===
/** Decimal text of integers: how a template literal renders a safe integer,
    and how `Number` reads a string made only of ASCII digits. */
module Decimal {

  predicate IsDigit(c: char) {
    '0' <= c <= '9'
  }

  predicate AllDigits(s: string) {
    forall k :: 0 <= k < |s| ==> IsDigit(s[k])
  }

  function DigitValue(c: char): nat
    requires IsDigit(c)
  {
    c as int - '0' as int
  }

  function DigitChar(d: nat): (c: char)
    requires d < 10
    ensures IsDigit(c) && DigitValue(c) == d
  {
    ('0' as int + d) as char
  }

  /** Shortest decimal text of `n`, most significant digit first. */
  function NatToString(n: nat): (s: string)
    ensures |s| >= 1 && AllDigits(s)
    decreases n
  {
    if n < 10 then [DigitChar(n)] else NatToString(n / 10) + [DigitChar(n % 10)]
  }

  /** The value of a digit string read in base ten (the empty string reads as 0). */
  function DigitsValue(s: string): nat
    requires AllDigits(s)
    decreases |s|
  {
    if s == [] then 0 else 10 * DigitsValue(s[..|s| - 1]) + DigitValue(s[|s| - 1])
  }

  /** `${i}` for an integer: a minus sign exactly for negatives, then digits. */
  function IntToString(i: int): (s: string)
    ensures |s| >= 1
    ensures (s[0] == '-') <==> i < 0
    ensures forall k :: 1 <= k < |s| ==> IsDigit(s[k])
  {
    if i < 0 then "-" + NatToString(-i) else NatToString(i)
  }

  /** Reading back the rendered digits gives the number that was rendered. */
  lemma {:induction false} NatToStringRoundTrip(n: nat)
    ensures DigitsValue(NatToString(n)) == n
    decreases n
  {
    var s := NatToString(n);
    if n >= 10 {
      var p := NatToString(n / 10);
      assert s == p + [DigitChar(n % 10)];
      assert s[..|s| - 1] == p;
      NatToStringRoundTrip(n / 10);
    } else {
      assert s[..|s| - 1] == [];
    }
  }

  /** Distinct integers render as distinct strings. */
  lemma IntToStringInjective(a: int, b: int)
    requires IntToString(a) == IntToString(b)
    ensures a == b
  {
    var s := IntToString(a);
    if a < 0 {
      assert b < 0;
      assert s[1..] == NatToString(-a);
      assert IntToString(b)[1..] == NatToString(-b);
      NatToStringRoundTrip(-a);
      NatToStringRoundTrip(-b);
    } else {
      assert b >= 0;
      NatToStringRoundTrip(a);
      NatToStringRoundTrip(b);
    }
  }

}

=== FILE: display.dfy ===
/** The board's display order: open quests before finished ones, each group
    by ascending due instant, a quest without a valid due instant counting as
    instant 0. `Array.prototype.sort` is stable, and the comparator is a
    consistent total preorder, so its result is the stable sort by this key. */
module Display {
  import opened Optional
  import opened Clock
  import opened Quest

  /** The comparator's view of a task: completion rank first, then due instant. */
  datatype SortKey = SortKey(rank: int, due: int)

  function DueOrZero(parse: DateParser, t: Task): int {
    match BuildDateTime(parse, t.date, t.time)
    case None => 0
    case Some(due) => due
  }

  function KeyOf(parse: DateParser, t: Task): SortKey {
    SortKey(if t.completed then 1 else 0, DueOrZero(parse, t))
  }

  /** The comparator returns a value <= 0. */
  predicate KeyLe(a: SortKey, b: SortKey) {
    a.rank < b.rank || (a.rank == b.rank && a.due <= b.due)
  }

  predicate Sorted(parse: DateParser, s: seq<Task>) {
    forall i, j :: 0 <= i < j < |s| ==> KeyLe(KeyOf(parse, s[i]), KeyOf(parse, s[j]))
  }

  /** Puts `x` in front of the first element it does not sort after. */
  function Insert(parse: DateParser, x: Task, s: seq<Task>): (r: seq<Task>)
    ensures multiset(r) == multiset(s) + multiset{x}
    decreases |s|
  {
    if s == [] || KeyLe(KeyOf(parse, x), KeyOf(parse, s[0])) then
      [x] + s
    else
      assert s == [s[0]] + s[1..];
      [s[0]] + Insert(parse, x, s[1..])
  }

  /** Inserting into a sorted list gives a sorted list. */
  lemma {:induction false} InsertSorted(parse: DateParser, x: Task, s: seq<Task>)
    requires Sorted(parse, s)
    ensures Sorted(parse, Insert(parse, x, s))
    decreases |s|
  {
    if s != [] && !KeyLe(KeyOf(parse, x), KeyOf(parse, s[0])) {
      var tail := s[1..];
      var rest := Insert(parse, x, tail);
      InsertSorted(parse, x, tail);
      var k0 := KeyOf(parse, s[0]);
      forall j | 0 <= j < |rest|
        ensures KeyLe(k0, KeyOf(parse, rest[j]))
      {
        assert rest[j] in multiset(rest);
        if rest[j] != x {
          assert rest[j] in multiset(tail);
          var m :| 0 <= m < |tail| && tail[m] == rest[j];
          assert s[m + 1] == rest[j];
        }
      }
      var r := [s[0]] + rest;
      assert r == Insert(parse, x, s);
      forall i, j | 0 <= i < j < |r|
        ensures KeyLe(KeyOf(parse, r[i]), KeyOf(parse, r[j]))
      {
        if i > 0 {
          assert r[i] == rest[i - 1] && r[j] == rest[j - 1];
        } else {
          assert r[j] == rest[j - 1];
        }
      }
    }
  }

  /** sortedTasks: a stable sort of the tasks by their key. */
  function SortTasks(parse: DateParser, tasks: seq<Task>): (r: seq<Task>)
    ensures multiset(r) == multiset(tasks)
    ensures Sorted(parse, r)
    ensures forall i, j :: 0 <= i < j < |r| && !r[j].completed ==> !r[i].completed
    ensures forall i, j :: 0 <= i < j < |r| && r[i].completed == r[j].completed ==>
      DueOrZero(parse, r[i]) <= DueOrZero(parse, r[j])
    decreases |tasks|
  {
    if tasks == [] then []
    else
      assert tasks == [tasks[0]] + tasks[1..];
      InsertSorted(parse, tasks[0], SortTasks(parse, tasks[1..]));
      Insert(parse, tasks[0], SortTasks(parse, tasks[1..]))
  }

  /** The tasks with a given key, in the order the sequence holds them. */
  function WithKey(parse: DateParser, s: seq<Task>, k: SortKey): seq<Task>
    decreases |s|
  {
    if s == [] then []
    else (if KeyOf(parse, s[0]) == k then [s[0]] else []) + WithKey(parse, s[1..], k)
  }

  lemma {:induction false} WithKeyAppend(parse: DateParser, a: seq<Task>, b: seq<Task>, k: SortKey)
    ensures WithKey(parse, a + b, k) == WithKey(parse, a, k) + WithKey(parse, b, k)
    decreases |a|
  {
    if a == [] {
      assert a + b == b;
    } else {
      var ab := a + b;
      assert ab[0] == a[0] && ab[1..] == a[1..] + b;
      WithKeyAppend(parse, a[1..], b, k);
    }
  }

  /** Inserting into a sorted list keeps every key's tasks in the order they
      would have if `x` were simply put in front. */
  lemma {:induction false} InsertStable(parse: DateParser, x: Task, s: seq<Task>, k: SortKey)
    ensures WithKey(parse, Insert(parse, x, s), k) == WithKey(parse, [x] + s, k)
    decreases |s|
  {
    if s != [] && !KeyLe(KeyOf(parse, x), KeyOf(parse, s[0])) {
      var tail := s[1..];
      var rest := Insert(parse, x, tail);
      assert Insert(parse, x, s) == [s[0]] + rest;
      assert s == [s[0]] + tail;
      var a := WithKey(parse, [x], k);
      var b := WithKey(parse, [s[0]], k);
      var t := WithKey(parse, tail, k);
      InsertStable(parse, x, tail, k);
      WithKeyAppend(parse, [x], tail, k);
      WithKeyAppend(parse, [s[0]], rest, k);
      assert WithKey(parse, Insert(parse, x, s), k) == b + (a + t);
      WithKeyAppend(parse, [s[0]], tail, k);
      WithKeyAppend(parse, [x], s, k);
      assert WithKey(parse, [x] + s, k) == a + (b + t);
      assert KeyOf(parse, x) != KeyOf(parse, s[0]);
      assert a == [] || b == [];
    }
  }

  /** The sort is stable: the tasks sharing any one key appear in the output
      in the same relative order as in the input. */
  lemma {:induction false} SortStable(parse: DateParser, tasks: seq<Task>, k: SortKey)
    ensures WithKey(parse, SortTasks(parse, tasks), k) == WithKey(parse, tasks, k)
    decreases |tasks|
  {
    if tasks != [] {
      SortStable(parse, tasks[1..], k);
      InsertStable(parse, tasks[0], SortTasks(parse, tasks[1..]), k);
      WithKeyAppend(parse, [tasks[0]], SortTasks(parse, tasks[1..]), k);
      WithKeyAppend(parse, [tasks[0]], tasks[1..], k);
      assert tasks == [tasks[0]] + tasks[1..];
    }
  }

  /** Open quests A (due 10:00) and C (due 08:00) and finished quest B (due
      09:00) display as C, A, B; B's earlier instant does not lift it above
      the open quests. */
  lemma SortExample(parse: DateParser, a: Task, b: Task, c: Task)
    requires !a.completed && b.completed && !c.completed
    requires DueOrZero(parse, a) == 36000000
    requires DueOrZero(parse, b) == 32400000
    requires DueOrZero(parse, c) == 28800000
    ensures SortTasks(parse, [a, b, c]) == [c, a, b]
  {
    SortExampleTail(parse, b, c);
    assert [a, b, c][1..] == [b, c];
    assert SortTasks(parse, [a, b, c]) == Insert(parse, a, [c, b]);
    assert Insert(parse, a, [b]) == [a, b];
  }

  lemma SortExampleTail(parse: DateParser, b: Task, c: Task)
    requires b.completed && !c.completed
    ensures SortTasks(parse, [b, c]) == [c, b]
  {
  }

}

=== FILE: engine.dfy ===
/** The quest engine of the app: creating, completing and deleting quests,
    the XP and streak rules, reminder toasts, and the values derived from XP. */
module Engine {
  import opened Optional
  import opened Decimal
  import opened Clock
  import opened Quest

  function Max(a: int, b: int): int {
    if a >= b then a else b
  }

  // ---------------------------------------------------------------- creation

  /** The creation form's fields, as strings bound to its inputs. */
  datatype Form = Form(title: string, date: string, time: string, reminder: string)

  /** The form after a successful submission. */
  const ClearedForm: Form := Form("", "", "", "none")

  /** What submitting the form yields: the new state, the form's new contents,
      and whether `requestNotificationPermission` is called. */
  datatype AddOutcome = AddOutcome(state: State, form: Form, requestsPermission: bool)

  /** addTask, submitted at instant `now` (which also becomes the new id). */
  function AddTask(s: State, form: Form, now: int): (r: AddOutcome)
    ensures form.title == [] || form.date == [] || form.time == [] ==>
      r == AddOutcome(s, form, false)
    ensures form.title != [] && form.date != [] && form.time != [] ==>
      && |r.state.tasks| == |s.tasks| + 1
      && r.state.tasks[..|s.tasks|] == s.tasks
      && r.state.tasks[|s.tasks|] ==
           Task(now, form.title, form.date, form.time, NormalizeReminder(form.reminder), false)
      && r.state.xp == s.xp + 5
      && r.state.streak == s.streak
      && r.state.lastCompletedDate == s.lastCompletedDate
      && r.state.activeReminders == s.activeReminders
      && r.form == ClearedForm
      && (r.requestsPermission <==> NormalizeReminder(form.reminder).Some?)
  {
    if form.title == [] || form.date == [] || form.time == [] then
      AddOutcome(s, form, false)
    else
      var minutes := NormalizeReminder(form.reminder);
      var task := Task(now, form.title, form.date, form.time, minutes, false);
      AddOutcome(
        s.(tasks := s.tasks + [task], xp := s.xp + XpPerCreate),
        ClearedForm,
        minutes.Some?)
  }

  // ---------------------------------------------------------------- toggling

  /** Index of the first task with id `id` (what `tasks.find` returns). */
  function FirstIndex(tasks: seq<Task>, id: int): (r: Option<nat>)
    ensures r.None? <==> forall i :: 0 <= i < |tasks| ==> tasks[i].id != id
    ensures r.Some? ==> r.value < |tasks| && tasks[r.value].id == id
    ensures r.Some? ==> forall j :: 0 <= j < r.value ==> tasks[j].id != id
    decreases |tasks|
  {
    if tasks == [] then None
    else if tasks[0].id == id then Some(0)
    else match FirstIndex(tasks[1..], id)
      case None => None
      case Some(k) => Some(k + 1)
  }

  function FlipIf(t: Task, id: int): Task {
    if t.id == id then t.(completed := !t.completed) else t
  }

  /** The list with the completion flag of every task carrying `id` inverted,
      every other task unchanged and the order kept. */
  function Flip(tasks: seq<Task>, id: int): (r: seq<Task>)
    ensures |r| == |tasks|
    ensures forall i :: 0 <= i < |tasks| ==> r[i] == FlipIf(tasks[i], id)
    decreases |tasks|
  {
    if tasks == [] then [] else [FlipIf(tasks[0], id)] + Flip(tasks[1..], id)
  }

  /** The streak after a completion on day `today`, given the last completion day. */
  function NextStreak(streak: int, last: Option<int>, today: int, yesterday: int): int {
    if last == Some(today) then streak
    else if last == Some(yesterday) then streak + 1
    else 1
  }

  /** toggleTask(id) at instant `now`. The first task with the id decides
      whether this is a completion or an undo; every task with the id flips. */
  function ToggleTask(s: State, id: int, now: int): (r: State)
    ensures FirstIndex(s.tasks, id).None? ==> r == s
    ensures |r.tasks| == |s.tasks|
    ensures forall i :: 0 <= i < |s.tasks| ==>
      && r.tasks[i].id == s.tasks[i].id
      && r.tasks[i].title == s.tasks[i].title
      && r.tasks[i].date == s.tasks[i].date
      && r.tasks[i].time == s.tasks[i].time
      && r.tasks[i].reminderMinutes == s.tasks[i].reminderMinutes
      && (r.tasks[i].completed <==> (s.tasks[i].completed != (s.tasks[i].id == id)))
    ensures r.activeReminders == s.activeReminders
    ensures FirstIndex(s.tasks, id).Some? && !s.tasks[FirstIndex(s.tasks, id).value].completed ==>
      && r.xp == s.xp + 10
      && r.lastCompletedDate == Some(UtcDay(now))
      && (s.lastCompletedDate == Some(UtcDay(now)) ==> r.streak == s.streak)
      && (s.lastCompletedDate == Some(UtcDay(now) - 1) ==> r.streak == s.streak + 1)
      && (s.lastCompletedDate != Some(UtcDay(now)) && s.lastCompletedDate != Some(UtcDay(now) - 1) ==>
            r.streak == 1)
    ensures FirstIndex(s.tasks, id).Some? && s.tasks[FirstIndex(s.tasks, id).value].completed ==>
      && r.xp == (if s.xp >= 10 then s.xp - 10 else 0)
      && r.streak == s.streak
      && r.lastCompletedDate == s.lastCompletedDate
  {
    match FirstIndex(s.tasks, id)
    case None => s
    case Some(i) =>
      var today := UtcDay(now);
      var yesterday := UtcDay(now - MsPerDay);
      YesterdayIsPreviousDay(now);
      var tasks := Flip(s.tasks, id);
      if !s.tasks[i].completed then
        s.(tasks := tasks,
           xp := s.xp + XpPerComplete,
           streak := NextStreak(s.streak, s.lastCompletedDate, today, yesterday),
           lastCompletedDate := Some(today))
      else
        s.(tasks := tasks, xp := Max(0, s.xp - XpPerComplete))
  }

  // ---------------------------------------------------------------- deletion

  /** The tasks whose id differs from `id`, in their original order. */
  function WithoutId(tasks: seq<Task>, id: int): (r: seq<Task>)
    ensures |r| <= |tasks|
    ensures forall t :: t in r <==> t in tasks && t.id != id
    decreases |tasks|
  {
    if tasks == [] then []
    else if tasks[0].id == id then WithoutId(tasks[1..], id)
      else [tasks[0]] + WithoutId(tasks[1..], id)
  }

  /** The toasts whose id does not begin with `prefix`, in their original order. */
  function WithoutPrefix(reminders: seq<Reminder>, prefix: string): (r: seq<Reminder>)
    ensures |r| <= |reminders|
    ensures forall m :: m in r <==> m in reminders && !StartsWith(m.id, prefix)
    decreases |reminders|
  {
    if reminders == [] then []
    else if StartsWith(reminders[0].id, prefix) then WithoutPrefix(reminders[1..], prefix)
    else [reminders[0]] + WithoutPrefix(reminders[1..], prefix)
  }

  /** deleteTask(id): drops the tasks with the id and every toast whose id
      starts with `${id}-`. */
  function DeleteTask(s: State, id: int): (r: State)
    ensures forall t :: t in r.tasks <==> t in s.tasks && t.id != id
    ensures forall m :: m in r.activeReminders <==>
      m in s.activeReminders && !StartsWith(m.id, IntToString(id) + "-")
    ensures r.xp == s.xp && r.streak == s.streak && r.lastCompletedDate == s.lastCompletedDate
  {
    s.(tasks := WithoutId(s.tasks, id),
       activeReminders := WithoutPrefix(s.activeReminders, IntToString(id) + "-"))
  }

  /** Filtering distributes over concatenation: what survives keeps its order. */
  lemma {:induction false} WithoutIdAppend(a: seq<Task>, b: seq<Task>, id: int)
    ensures WithoutId(a + b, id) == WithoutId(a, id) + WithoutId(b, id)
    decreases |a|
  {
    if a != [] {
      var ab := a + b;
      assert ab[0] == a[0] && ab[1..] == a[1..] + b;
      WithoutIdAppend(a[1..], b, id);
      if a[0].id != id {
        assert WithoutId(ab, id) == [a[0]] + WithoutId(a[1..] + b, id);
        assert WithoutId(a, id) == [a[0]] + WithoutId(a[1..], id);
      }
    } else {
      assert a + b == b;
    }
  }

  /** The toast filter distributes over concatenation too: the toasts that
      survive a delete keep their order and their number. */
  lemma {:induction false} WithoutPrefixAppend(a: seq<Reminder>, b: seq<Reminder>, prefix: string)
    ensures WithoutPrefix(a + b, prefix) == WithoutPrefix(a, prefix) + WithoutPrefix(b, prefix)
    decreases |a|
  {
    if a != [] {
      var ab := a + b;
      assert ab[0] == a[0] && ab[1..] == a[1..] + b;
      WithoutPrefixAppend(a[1..], b, prefix);
      if !StartsWith(a[0].id, prefix) {
        assert WithoutPrefix(ab, prefix) == [a[0]] + WithoutPrefix(a[1..] + b, prefix);
        assert WithoutPrefix(a, prefix) == [a[0]] + WithoutPrefix(a[1..], prefix);
      }
    } else {
      assert a + b == b;
    }
  }

  /** Deleting twice is deleting once. */
  lemma DeleteIdempotent(s: State, id: int)
    ensures DeleteTask(DeleteTask(s, id), id) == DeleteTask(s, id)
  {
    WithoutIdIdempotent(s.tasks, id);
    WithoutPrefixIdempotent(s.activeReminders, IntToString(id) + "-");
  }

  lemma {:induction false} WithoutIdIdempotent(tasks: seq<Task>, id: int)
    ensures WithoutId(WithoutId(tasks, id), id) == WithoutId(tasks, id)
    decreases |tasks|
  {
    if tasks != [] {
      WithoutIdIdempotent(tasks[1..], id);
      if tasks[0].id != id {
        var r := WithoutId(tasks, id);
        assert r == [tasks[0]] + WithoutId(tasks[1..], id);
        assert r[1..] == WithoutId(tasks[1..], id);
      }
    }
  }

  lemma {:induction false} WithoutPrefixIdempotent(reminders: seq<Reminder>, prefix: string)
    ensures WithoutPrefix(WithoutPrefix(reminders, prefix), prefix) == WithoutPrefix(reminders, prefix)
    decreases |reminders|
  {
    if reminders != [] {
      WithoutPrefixIdempotent(reminders[1..], prefix);
      if !StartsWith(reminders[0].id, prefix) {
        var r := WithoutPrefix(reminders, prefix);
        assert r[1..] == WithoutPrefix(reminders[1..], prefix);
      }
    }
  }

  /** Deleting the quest just created (its id is the creation instant, unused
      before) gives back the task list; the creation XP is kept. */
  lemma AddThenDelete(s: State, form: Form, now: int)
    requires form.title != [] && form.date != [] && form.time != []
    requires forall t :: t in s.tasks ==> t.id != now
    ensures DeleteTask(AddTask(s, form, now).state, now).tasks == s.tasks
    ensures DeleteTask(AddTask(s, form, now).state, now).xp == s.xp + XpPerCreate
  {
    var t := AddTask(s, form, now).state.tasks[|s.tasks|];
    assert AddTask(s, form, now).state.tasks == s.tasks + [t];
    WithoutIdAppend(s.tasks, [t], now);
    WithoutIdKeepsAll(s.tasks, now);
    assert WithoutId([t], now) == [];
  }

  lemma {:induction false} WithoutIdKeepsAll(tasks: seq<Task>, id: int)
    requires forall t :: t in tasks ==> t.id != id
    ensures WithoutId(tasks, id) == tasks
    decreases |tasks|
  {
    if tasks != [] {
      assert tasks[0] in tasks;
      assert forall t :: t in tasks[1..] ==> t in tasks;
      WithoutIdKeepsAll(tasks[1..], id);
      assert tasks == [tasks[0]] + tasks[1..];
    }
  }

  // ---------------------------------------------------------------- reminder toasts

  /** A reminder timer for `task` firing at instant `firedAt`: the snapshot
      toast goes on top of the stack. */
  function FireReminder(s: State, task: Task, firedAt: int): (r: State)
    ensures r.activeReminders ==
      [Reminder(ReminderId(task.id, firedAt), task.title, task.date, task.time, task.reminderMinutes)]
        + s.activeReminders
    ensures r.tasks == s.tasks && r.xp == s.xp && r.streak == s.streak
    ensures r.lastCompletedDate == s.lastCompletedDate
  {
    var toast := Reminder(ReminderId(task.id, firedAt), task.title, task.date, task.time, task.reminderMinutes);
    s.(activeReminders := [toast] + s.activeReminders)
  }

  /** The toasts whose id is not `reminderId`, in their original order. */
  function WithoutReminderId(reminders: seq<Reminder>, reminderId: string): (r: seq<Reminder>)
    ensures |r| <= |reminders|
    ensures forall m :: m in r <==> m in reminders && m.id != reminderId
    decreases |reminders|
  {
    if reminders == [] then []
    else if reminders[0].id == reminderId then WithoutReminderId(reminders[1..], reminderId)
    else [reminders[0]] + WithoutReminderId(reminders[1..], reminderId)
  }

  /** The dismiss filter distributes over concatenation: the remaining toasts
      keep their order and their number. */
  lemma {:induction false} WithoutReminderIdAppend(a: seq<Reminder>, b: seq<Reminder>, reminderId: string)
    ensures WithoutReminderId(a + b, reminderId) == WithoutReminderId(a, reminderId) + WithoutReminderId(b, reminderId)
    decreases |a|
  {
    if a != [] {
      var ab := a + b;
      assert ab[0] == a[0] && ab[1..] == a[1..] + b;
      WithoutReminderIdAppend(a[1..], b, reminderId);
      if a[0].id != reminderId {
        assert WithoutReminderId(ab, reminderId) == [a[0]] + WithoutReminderId(a[1..] + b, reminderId);
        assert WithoutReminderId(a, reminderId) == [a[0]] + WithoutReminderId(a[1..], reminderId);
      }
    } else {
      assert a + b == b;
    }
  }

  /** The Dismiss button: drops every toast with that id. */
  function DismissReminder(s: State, reminderId: string): (r: State)
    ensures forall m :: m in r.activeReminders <==> m in s.activeReminders && m.id != reminderId
    ensures r.tasks == s.tasks && r.xp == s.xp && r.streak == s.streak
    ensures r.lastCompletedDate == s.lastCompletedDate
  {
    s.(activeReminders := WithoutReminderId(s.activeReminders, reminderId))
  }

  /** Deleting a task removes the toasts its own timers raised and no other
      task's toasts. */
  lemma DeleteCascade(s: State, id: int, taskId: int, firedAt: int, m: Reminder)
    requires m in s.activeReminders && m.id == ReminderId(taskId, firedAt)
    ensures m in DeleteTask(s, id).activeReminders <==> taskId != id
  {
    ReminderIdPrefix(id, taskId, firedAt);
  }

  /** Dismissing a freshly fired toast, when no toast had its id, returns the stack to
      what it was. */
  lemma FireThenDismiss(s: State, task: Task, firedAt: int)
    requires forall m :: m in s.activeReminders ==> m.id != ReminderId(task.id, firedAt)
    ensures DismissReminder(FireReminder(s, task, firedAt), ReminderId(task.id, firedAt)) == s
  {
    DismissNothing(s.activeReminders, ReminderId(task.id, firedAt));
  }

  lemma {:induction false} DismissNothing(reminders: seq<Reminder>, reminderId: string)
    requires forall m :: m in reminders ==> m.id != reminderId
    ensures WithoutReminderId(reminders, reminderId) == reminders
    decreases |reminders|
  {
    if reminders != [] {
      assert forall m :: m in reminders[1..] ==> m in reminders;
      DismissNothing(reminders[1..], reminderId);
      assert reminders == [reminders[0]] + reminders[1..];
    }
  }

  // ---------------------------------------------------------------- derived values

  /** One level per full hundred XP, counting from level 1; Dafny's division by
      a positive divisor floors, as the app's rounding down does. */
  function Level(xp: int): (n: int)
    ensures (n - 1) * 100 <= xp < n * 100
  {
    xp / 100 + 1
  }

  /** JavaScript's `a % b`: the remainder takes the sign of the dividend. */
  function JsRemainder(a: int, b: int): (r: int)
    requires b > 0
    ensures a >= 0 ==> 0 <= r < b
    ensures a < 0 ==> -b < r <= 0
    ensures a >= 0 ==> a == (a / b) * b + r
    ensures a < 0 ==> a == -((-a) / b) * b + r
  {
    if a >= 0 then a % b else -((-a) % b)
  }

  /** The XP earned within the current level, using the app's truncating remainder. */
  function LevelProgress(xp: int): (p: int)
    ensures xp >= 0 ==> 0 <= p < 100 && xp == (Level(xp) - 1) * 100 + p
  {
    JsRemainder(xp, 100)
  }

  /** The "XP to level up" figure. */
  function XpToLevelUp(xp: int): (n: int)
    ensures xp >= 0 ==> 1 <= n <= 100 && xp + n == Level(xp) * 100
  {
    100 - LevelProgress(xp)
  }

  /** The number of completed tasks. */
  function CompletedCount(tasks: seq<Task>): (n: nat)
    ensures n <= |tasks|
    ensures n == 0 <==> forall i :: 0 <= i < |tasks| ==> !tasks[i].completed
    decreases |tasks|
  {
    if tasks == [] then 0
    else (if tasks[0].completed then 1 else 0) + CompletedCount(tasks[1..])
  }

  /** For non-negative XP, level and progress split XP into whole levels of 100
      and a remainder. */
  lemma LevelDecomposition(xp: int)
    requires xp >= 0
    ensures Level(xp) >= 1
    ensures 0 <= LevelProgress(xp) < 100
    ensures xp == (Level(xp) - 1) * 100 + LevelProgress(xp)
    ensures 1 <= XpToLevelUp(xp) <= 100
  {
  }

  /** 250 XP is level 3 with 50 XP of progress and 50 XP to go. */
  lemma LevelExample()
    ensures Level(250) == 3 && LevelProgress(250) == 50 && XpToLevelUp(250) == 50
  {
  }

  /** More XP never shows a lower level. */
  lemma LevelMonotone(a: int, b: int)
    requires a <= b
    ensures Level(a) <= Level(b)
  {
  }

  // ---------------------------------------------------------------- the invariant

  /** What every state reached from `Initial` satisfies when each quest is
      created at an unused instant (the requires of `AddPreservesConsistent`):
      ids are distinct, every completed quest is still paid for in XP, and a
      streak exists exactly when a completion day is recorded. */
  predicate Consistent(s: State) {
    && UniqueIds(s.tasks)
    && s.xp >= XpPerComplete * CompletedCount(s.tasks)
    && (s.lastCompletedDate.None? ==> s.streak == 0)
    && (s.lastCompletedDate.Some? ==> s.streak >= 1)
  }

  lemma InitialConsistent()
    ensures Consistent(Initial)
  {
  }

  lemma {:induction false} CompletedCountAppend(a: seq<Task>, b: seq<Task>)
    ensures CompletedCount(a + b) == CompletedCount(a) + CompletedCount(b)
    decreases |a|
  {
    if a != [] {
      var ab := a + b;
      assert ab[0] == a[0] && ab[1..] == a[1..] + b;
      CompletedCountAppend(a[1..], b);
    } else {
      assert a + b == b;
    }
  }

  /** Creating a quest with an id not yet in use keeps the state consistent. */
  lemma AddPreservesConsistent(s: State, form: Form, now: int)
    requires Consistent(s)
    requires forall t :: t in s.tasks ==> t.id != now
    ensures Consistent(AddTask(s, form, now).state)
  {
    var r := AddTask(s, form, now).state;
    if r != s {
      var t := r.tasks[|s.tasks|];
      assert r.tasks == s.tasks + [t];
      CompletedCountAppend(s.tasks, [t]);
      assert CompletedCount([t]) == 0;
      forall i, j | 0 <= i < j < |r.tasks|
        ensures r.tasks[i].id != r.tasks[j].id
      {
        if j == |s.tasks| {
          assert r.tasks[i] in s.tasks;
        }
      }
    }
  }

  /** With distinct ids, toggling changes the completed count by exactly one. */
  lemma {:induction false} FlipCount(tasks: seq<Task>, id: int, i: nat)
    requires UniqueIds(tasks) && i < |tasks| && tasks[i].id == id
    ensures CompletedCount(Flip(tasks, id)) ==
      CompletedCount(tasks) + (if tasks[i].completed then -1 else 1)
    decreases |tasks|
  {
    var f := Flip(tasks, id);
    assert f[1..] == Flip(tasks[1..], id);
    if i == 0 {
      assert forall k :: 0 <= k < |tasks[1..]| ==> tasks[1..][k].id != id by {
        forall k | 0 <= k < |tasks[1..]|
          ensures tasks[1..][k].id != id
        {
          assert tasks[1..][k] == tasks[k + 1];
        }
      }
      assert Flip(tasks[1..], id) == tasks[1..];
    } else {
      FlipCount(tasks[1..], id, i - 1);
    }
  }

  lemma CompletedIsCounted(tasks: seq<Task>, i: nat)
    requires i < |tasks| && tasks[i].completed
    ensures CompletedCount(tasks) >= 1
  {
  }

  /** Toggling keeps the state consistent; in a consistent state undoing a
      completion always costs the full 10 XP (the floor at 0 never engages). */
  lemma TogglePreservesConsistent(s: State, id: int, now: int)
    requires Consistent(s)
    ensures Consistent(ToggleTask(s, id, now))
    ensures FirstIndex(s.tasks, id).Some? && s.tasks[FirstIndex(s.tasks, id).value].completed ==>
      ToggleTask(s, id, now).xp == s.xp - XpPerComplete
  {
    var r := ToggleTask(s, id, now);
    match FirstIndex(s.tasks, id)
    case None =>
    case Some(i) =>
      FlipCount(s.tasks, id, i);
      assert r.tasks == Flip(s.tasks, id);
      if s.tasks[i].completed {
        CompletedIsCounted(s.tasks, i);
      }
  }

  lemma {:induction false} WithoutIdCount(tasks: seq<Task>, id: int)
    ensures CompletedCount(WithoutId(tasks, id)) <= CompletedCount(tasks)
    decreases |tasks|
  {
    if tasks != [] {
      WithoutIdCount(tasks[1..], id);
    }
  }

  lemma {:induction false} WithoutIdUnique(tasks: seq<Task>, id: int)
    requires UniqueIds(tasks)
    ensures UniqueIds(WithoutId(tasks, id))
    decreases |tasks|
  {
    if tasks != [] {
      UniqueTail(tasks);
      WithoutIdUnique(tasks[1..], id);
      if tasks[0].id != id {
        UniqueCons(tasks[0], WithoutId(tasks[1..], id));
      }
    }
  }

  lemma UniqueTail(tasks: seq<Task>)
    requires UniqueIds(tasks) && tasks != []
    ensures UniqueIds(tasks[1..])
    ensures forall t :: t in tasks[1..] ==> t.id != tasks[0].id
  {
  }

  lemma UniqueCons(x: Task, w: seq<Task>)
    requires UniqueIds(w) && forall t :: t in w ==> t.id != x.id
    ensures UniqueIds([x] + w)
  {
  }

  /** Deleting keeps the state consistent. */
  lemma DeletePreservesConsistent(s: State, id: int)
    requires Consistent(s)
    ensures Consistent(DeleteTask(s, id))
  {
    WithoutIdCount(s.tasks, id);
    WithoutIdUnique(s.tasks, id);
  }

  /** Toggling twice restores the task list and, from non-negative XP, the XP
      of a completion undone. The streak and completion day the first toggle
      set are NOT rolled back. Undoing and redoing a completion leaves XP at
      least 10. */
  lemma ToggleTwice(s: State, id: int, now1: int, now2: int)
    ensures ToggleTask(ToggleTask(s, id, now1), id, now2).tasks == s.tasks
    ensures FirstIndex(s.tasks, id).Some? && !s.tasks[FirstIndex(s.tasks, id).value].completed && s.xp >= 0 ==>
      && ToggleTask(ToggleTask(s, id, now1), id, now2).xp == s.xp
      && ToggleTask(ToggleTask(s, id, now1), id, now2).streak == ToggleTask(s, id, now1).streak
      && ToggleTask(ToggleTask(s, id, now1), id, now2).lastCompletedDate == Some(UtcDay(now1))
    ensures FirstIndex(s.tasks, id).Some? && s.tasks[FirstIndex(s.tasks, id).value].completed ==>
      ToggleTask(ToggleTask(s, id, now1), id, now2).xp == Max(s.xp, XpPerComplete)
  {
    SameIdsSameFirst(s.tasks, ToggleTask(s, id, now1).tasks, id);
  }

  lemma SameIdsSameFirst(a: seq<Task>, b: seq<Task>, id: int)
    requires |a| == |b| && forall i :: 0 <= i < |a| ==> a[i].id == b[i].id
    ensures FirstIndex(a, id) == FirstIndex(b, id)
  {
  }

}

=== FILE: optional.dfy ===
/** Optional values: the model's rendering of JavaScript's `null` and
    `undefined` next to a present value. */
module Optional {

  datatype Option<+T> = None | Some(value: T)

}

=== FILE: quest.dfy ===
/** The quest board's data: tasks, reminder toasts, the gamification state,
    and the reminder choices the form offers. */
module Quest {
  import opened Optional
  import opened Decimal

  const XpPerCreate: int := 5
  const XpPerComplete: int := 10

  /** A quest. `id` is the creation instant; `reminderMinutes` is the offset
      before the due instant, None for "no reminder". */
  datatype Task = Task(
    id: int,
    title: string,
    date: string,
    time: string,
    reminderMinutes: Option<int>,
    completed: bool)

  /** An in-app reminder toast: a snapshot of the task taken when its timer fired. */
  datatype Reminder = Reminder(
    id: string,
    title: string,
    date: string,
    time: string,
    reminderMinutes: Option<int>)

  /** The engine's state. `lastCompletedDate` is a calendar day number (see Clock.UtcDay). */
  datatype State = State(
    tasks: seq<Task>,
    xp: int,
    streak: int,
    lastCompletedDate: Option<int>,
    activeReminders: seq<Reminder>)

  const Initial: State := State([], 0, 0, None, [])

  datatype ReminderOption = ReminderOption(caption: string, value: string)

  /** The choices of the reminder drop-down, in display order. */
  const ReminderOptions: seq<ReminderOption> := [
    ReminderOption("No reminder", "none"),
    ReminderOption("At start time", "0"),
    ReminderOption("5 min before", "5"),
    ReminderOption("15 min before", "15"),
    ReminderOption("30 min before", "30"),
    ReminderOption("1 hour before", "60")
  ]

  predicate UniqueIds(tasks: seq<Task>) {
    forall i, j :: 0 <= i < j < |tasks| ==> tasks[i].id != tasks[j].id
  }

  /** `Number(s)` for the strings the model reads: the empty string is 0, a
      string of digits is its decimal value, and anything else is NaN (None). */
  function JsNumber(s: string): Option<int> {
    if s == [] then Some(0)
    else if AllDigits(s) then Some(DigitsValue(s))
    else None
  }

  /** normalizeReminder: the form's reminder value as minutes, or None. */
  function NormalizeReminder(value: string): (r: Option<int>)
    ensures value == "none" ==> r == None
    ensures r.Some? ==> r.value >= 0
  {
    if value == "none" then None else JsNumber(value)
  }

  /** reminderLabel: the chip text for a reminder offset. */
  function ReminderLabel(minutes: Option<int>): (r: string)
    ensures r == "No reminder" <==> minutes.None?
  {
    match minutes
    case None => "No reminder"
    case Some(m) =>
      if m == 0 then "At start time"
      else if m == 60 then "1 hour before"
      else
        var text := IntToString(m) + " min before";
        assert text[|text| - 1] == 'e';
        text
  }

  /** Every whole number of minutes written in decimal survives normalisation. */
  lemma NormalizeReminderRoundTrip(n: nat)
    ensures NormalizeReminder(NatToString(n)) == Some(n)
  {
    var s := NatToString(n);
    assert s != "none" by {
      assert IsDigit(s[0]);
    }
    NatToStringRoundTrip(n);
  }

  /** reminderLabel maps each drop-down choice's normalised value back to
      that choice's caption (the card shows no chip for "No reminder"). */
  lemma ReminderOptionsAgree(i: nat)
    requires i < |ReminderOptions|
    ensures ReminderLabel(NormalizeReminder(ReminderOptions[i].value)) == ReminderOptions[i].caption
  {
    LabelsOfDigits();
    var o := ReminderOptions[i];
    if i == 0 {
      assert o == ReminderOption("No reminder", "none");
    } else if i == 1 {
      assert o == ReminderOption("At start time", "0");
    } else if i == 5 {
      assert o == ReminderOption("1 hour before", "60");
    } else {
      MinutesBeforeOption(i);
    }
  }

  /** The three "N min before" choices. */
  lemma MinutesBeforeOption(i: nat)
    requires 2 <= i <= 4
    ensures ReminderLabel(NormalizeReminder(ReminderOptions[i].value)) == ReminderOptions[i].caption
  {
    var o := ReminderOptions[i];
    if i == 2 {
      assert o == ReminderOption("5 min before", "5");
      MinutesBeforeLabel("5", 5, o.caption);
    } else if i == 3 {
      assert o == ReminderOption("15 min before", "15");
      MinutesBeforeLabel("15", 15, o.caption);
    } else {
      assert o == ReminderOption("30 min before", "30");
      MinutesBeforeLabel("30", 30, o.caption);
    }
  }

  /** A choice whose value is the decimal text of `m`, other than 0 and 60,
      is labelled "`m` min before". */
  lemma MinutesBeforeLabel(s: string, m: int, caption: string)
    requires m != 0 && m != 60
    requires NormalizeReminder(s) == Some(m) && IntToString(m) == s
    requires caption == s + " min before"
    ensures ReminderLabel(NormalizeReminder(s)) == caption
  {
  }

  lemma LabelsOfDigits()
    ensures NormalizeReminder("0") == Some(0)
    ensures NormalizeReminder("5") == Some(5)
    ensures NormalizeReminder("15") == Some(15)
    ensures NormalizeReminder("30") == Some(30)
    ensures NormalizeReminder("60") == Some(60)
    ensures IntToString(5) == "5" && IntToString(15) == "15" && IntToString(30) == "30"
  {
  }

  predicate StartsWith(s: string, prefix: string) {
    |prefix| <= |s| && s[..|prefix|] == prefix
  }

  /** Index of the first '-' at or after position `k`, or `|s|` when there is none. */
  function DashFrom(s: string, k: nat): (n: nat)
    requires k <= |s|
    ensures k <= n <= |s|
    decreases |s| - k
  {
    if k == |s| || s[k] == '-' then k else DashFrom(s, k + 1)
  }

  /** A text that starts with a sign-or-digit and continues with digits up to
      a dash at `n` has its first dash after the head at `n`. */
  lemma DashAfterDigits(s: string, n: nat)
    requires 1 <= n < |s| && s[n] == '-'
    requires forall j :: 1 <= j < n ==> IsDigit(s[j])
    ensures DashFrom(s, 1) == n
  {
    var k := n;
    while k > 1
      invariant 1 <= k <= n
      invariant DashFrom(s, k) == n
      decreases k
    {
      k := k - 1;
    }
  }

  /** The id a fired reminder toast gets: `${task.id}-${Date.now()}`. */
  function ReminderId(taskId: int, firedAt: int): (r: string)
    ensures StartsWith(r, IntToString(taskId) + "-")
    ensures r[|IntToString(taskId)| + 1..] == IntToString(firedAt)
  {
    IntToString(taskId) + "-" + IntToString(firedAt)
  }

  /** The prefix `${id}-` picks out exactly the toasts fired for task `id`:
      no other task's id text can be extended into it. */
  lemma ReminderIdPrefix(id: int, taskId: int, firedAt: int)
    ensures StartsWith(ReminderId(taskId, firedAt), IntToString(id) + "-") <==> id == taskId
  {
    var a := IntToString(id);
    var b := IntToString(taskId);
    var p := a + "-";
    var r := ReminderId(taskId, firedAt);
    assert r == b + ("-" + IntToString(firedAt));
    if id == taskId {
      assert r[..|p|] == p;
    } else if StartsWith(r, p) {
      DashAfterDigits(r, |b|);
      DashAfterDigits(r, |a|);
      assert a == p[..|a|] == r[..|a|] == b;
      IntToStringInjective(id, taskId);
    }
  }

}

=== FILE: scheduler.dfy ===
/** Which quests get a reminder timer, and after how long: the derivation the
    app re-runs from scratch every time the task list changes. */
module Scheduler {
  import opened Optional
  import opened Clock
  import opened Quest

  /** The instant a task's reminder is meant for: due instant minus the offset. */
  function ReminderAt(parse: DateParser, t: Task): Option<int> {
    match t.reminderMinutes
    case None => None
    case Some(m) =>
      match BuildDateTime(parse, t.date, t.time)
      case None => None
      case Some(due) => Some(due - m * MsPerMinute)
  }

  /** The timer delay for one task at instant `now`, or None when no timer is
      set: the task is completed, has no reminder, has no valid due instant, or
      its reminder instant is not in the future (missed reminders are dropped). */
  function ReminderDelay(parse: DateParser, t: Task, now: int): (r: Option<int>)
    ensures r.Some? <==>
      && !t.completed
      && t.reminderMinutes.Some?
      && BuildDateTime(parse, t.date, t.time).Some?
      && BuildDateTime(parse, t.date, t.time).value - t.reminderMinutes.value * MsPerMinute - now > 0
    ensures r.Some? ==>
      r.value == BuildDateTime(parse, t.date, t.time).value - t.reminderMinutes.value * MsPerMinute - now
  {
    if t.completed then None
    else match ReminderAt(parse, t)
      case None => None
      case Some(at) => if at - now <= 0 then None else Some(at - now)
  }

  /** The timer table after one rebuild: task id to delay, filled in list order,
      so with a repeated id the last task that sets a timer owns the entry. */
  function Schedule(parse: DateParser, tasks: seq<Task>, now: int): (m: map<int, int>)
    ensures forall k :: k in m ==> m[k] > 0
    decreases |tasks|
  {
    if tasks == [] then map[]
    else
      var t := tasks[|tasks| - 1];
      var m := Schedule(parse, tasks[..|tasks| - 1], now);
      match ReminderDelay(parse, t, now)
      case None => m
      case Some(d) => m[t.id := d]
  }

  /** A started timer: the task it belongs to and its delay. */
  datatype Timer = Timer(taskId: int, delay: int)

  /** Every `setTimeout` one rebuild makes, in list order: one per task that
      gets a timer, repeated ids included. */
  function Timers(parse: DateParser, tasks: seq<Task>, now: int): (r: seq<Timer>)
    ensures |r| <= |tasks|
    ensures forall k :: 0 <= k < |r| ==> r[k].delay > 0
    decreases |tasks|
  {
    if tasks == [] then []
    else
      var t := tasks[|tasks| - 1];
      var started := Timers(parse, tasks[..|tasks| - 1], now);
      match ReminderDelay(parse, t, now)
      case None => started
      case Some(d) => started + [Timer(t.id, d)]
  }

  /** A single task starts a timer exactly when it is eligible, under its own id. */
  lemma TimersOne(parse: DateParser, t: Task, now: int)
    ensures Timers(parse, [t], now)
         == if ReminderDelay(parse, t, now).Some?
            then [Timer(t.id, ReminderDelay(parse, t, now).value)]
            else []
  {
    assert [t][..0] == [];
  }

  /** The timers of a concatenation are the timers of each part, in turn. */
  lemma {:induction false} TimersAppend(parse: DateParser, a: seq<Task>, b: seq<Task>, now: int)
    ensures Timers(parse, a + b, now) == Timers(parse, a, now) + Timers(parse, b, now)
    decreases |b|
  {
    if b == [] {
      assert a + b == a;
    } else {
      var ab := a + b;
      assert ab[..|ab| - 1] == a + b[..|b| - 1];
      assert ab[|ab| - 1] == b[|b| - 1];
      TimersAppend(parse, a, b[..|b| - 1], now);
    }
  }

  /** The effect body as written: clear the timers recorded in `table`, then
      walk the tasks, start one timer per eligible task, and record it under
      its task id, replacing any handle already recorded for that id. Returns
      the ids whose timers were cleared, every timer started, and the new table. */
  method Rebuild(table: map<int, int>, parse: DateParser, tasks: seq<Task>, now: int)
    returns (cleared: set<int>, started: seq<Timer>, timers: map<int, int>)
    ensures cleared == table.Keys
    ensures started == Timers(parse, tasks, now)
    ensures timers == Schedule(parse, tasks, now)
  {
    cleared := table.Keys;
    started := [];
    timers := map[];
    var i := 0;
    while i < |tasks|
      invariant 0 <= i <= |tasks|
      invariant started == Timers(parse, tasks[..i], now)
      invariant timers == Schedule(parse, tasks[..i], now)
    {
      var t := tasks[i];
      assert tasks[..i + 1][..i] == tasks[..i];
      assert tasks[..i + 1][i] == t;
      var d := ReminderDelay(parse, t, now);
      if d.Some? {
        started := started + [Timer(t.id, d.value)];
        timers := timers[t.id := d.value];
      }
      i := i + 1;
    }
    assert tasks[..|tasks|] == tasks;
  }

  /** Two eligible tasks sharing an id start two timers, but the table keeps
      one handle: the next rebuild clears only that one, and the other timer
      still fires its toast, even after its task is completed or deleted. */
  lemma RepeatedIdLeaksTimer(parse: DateParser, t1: Task, t2: Task, now: int)
    requires t1.id == t2.id
    requires ReminderDelay(parse, t1, now).Some? && ReminderDelay(parse, t2, now).Some?
    ensures |Timers(parse, [t1, t2], now)| == 2
    ensures Schedule(parse, [t1, t2], now).Keys == {t1.id}
    ensures |Schedule(parse, [t1, t2], now).Keys| < |Timers(parse, [t1, t2], now)|
  {
    assert [t1, t2][..1] == [t1];
    assert [t1][..0] == [];
    var m1 := Schedule(parse, [t1], now);
    var m0 := Schedule(parse, [t1][..0], now);
    assert m0 == map[];
    assert m1 == m0[t1.id := ReminderDelay(parse, t1, now).value];
    assert Schedule(parse, [t1, t2], now) == m1[t2.id := ReminderDelay(parse, t2, now).value];
    assert Schedule(parse, [t1, t2], now).Keys == {t1.id};
    assert |{t1.id}| == 1;
  }

  /** The table never records more ids than timers were started. */
  lemma {:induction false} TableAtMostTimers(parse: DateParser, tasks: seq<Task>, now: int)
    ensures |Schedule(parse, tasks, now).Keys| <= |Timers(parse, tasks, now)|
    decreases |tasks|
  {
    if tasks != [] {
      var front := tasks[..|tasks| - 1];
      var t := tasks[|tasks| - 1];
      TableAtMostTimers(parse, front, now);
      var m := Schedule(parse, front, now);
      if ReminderDelay(parse, t, now).Some? {
        assert m[t.id := ReminderDelay(parse, t, now).value].Keys == m.Keys + {t.id};
        assert |m.Keys + {t.id}| <= |m.Keys| + |{t.id}|;
      }
    }
  }

  /** With distinct ids the table records a handle for every timer started,
      so the next rebuild clears them all. */
  lemma {:induction false} DistinctIdsNoLeak(parse: DateParser, tasks: seq<Task>, now: int)
    requires UniqueIds(tasks)
    ensures |Schedule(parse, tasks, now).Keys| == |Timers(parse, tasks, now)|
    decreases |tasks|
  {
    if tasks != [] {
      var front := tasks[..|tasks| - 1];
      var t := tasks[|tasks| - 1];
      assert UniqueIds(front) by {
        assert forall i :: 0 <= i < |front| ==> front[i] == tasks[i];
      }
      DistinctIdsNoLeak(parse, front, now);
      var m := Schedule(parse, front, now);
      if ReminderDelay(parse, t, now).Some? {
        ScheduleDomain(parse, front, now, t.id);
        assert t.id !in m.Keys;
        assert m[t.id := ReminderDelay(parse, t, now).value].Keys == m.Keys + {t.id};
      }
    }
  }

  /** A rebuild that records every timer it starts, whatever its task id, and
      clears every recorded timer first: nothing it starts can outlive the
      next rebuild. */
  method RebuildAll(registry: seq<Timer>, parse: DateParser, tasks: seq<Task>, now: int)
    returns (cleared: seq<Timer>, recorded: seq<Timer>)
    ensures cleared == registry
    ensures recorded == Timers(parse, tasks, now)
    ensures |recorded| >= |Schedule(parse, tasks, now).Keys|
  {
    cleared := registry;
    recorded := [];
    var i := 0;
    while i < |tasks|
      invariant 0 <= i <= |tasks|
      invariant recorded == Timers(parse, tasks[..i], now)
    {
      var t := tasks[i];
      assert tasks[..i + 1][..i] == tasks[..i];
      assert tasks[..i + 1][i] == t;
      var d := ReminderDelay(parse, t, now);
      if d.Some? {
        recorded := recorded + [Timer(t.id, d.value)];
      }
      i := i + 1;
    }
    assert tasks[..|tasks|] == tasks;
    TableAtMostTimers(parse, tasks, now);
  }

  /** An id has an entry exactly when some task with that id sets a timer. */
  lemma {:induction false} ScheduleDomain(parse: DateParser, tasks: seq<Task>, now: int, k: int)
    ensures k in Schedule(parse, tasks, now) <==>
      exists i :: 0 <= i < |tasks| && tasks[i].id == k && ReminderDelay(parse, tasks[i], now).Some?
    decreases |tasks|
  {
    if tasks != [] {
      var front := tasks[..|tasks| - 1];
      var t := tasks[|tasks| - 1];
      ScheduleDomain(parse, front, now, k);
      assert forall i :: 0 <= i < |front| ==> front[i] == tasks[i];
      if k in Schedule(parse, tasks, now) && k !in Schedule(parse, front, now) {
        assert tasks[|tasks| - 1].id == k;
      }
    }
  }

  /** The entry for an id is the delay of the last task with that id that
      sets a timer. */
  lemma {:induction false} ScheduleValue(parse: DateParser, tasks: seq<Task>, now: int, i: nat)
    requires i < |tasks| && ReminderDelay(parse, tasks[i], now).Some?
    requires forall j :: i < j < |tasks| && tasks[j].id == tasks[i].id ==>
      ReminderDelay(parse, tasks[j], now).None?
    ensures tasks[i].id in Schedule(parse, tasks, now)
    ensures Schedule(parse, tasks, now)[tasks[i].id] == ReminderDelay(parse, tasks[i], now).value
    decreases |tasks|
  {
    var front := tasks[..|tasks| - 1];
    if i < |tasks| - 1 {
      assert front[i] == tasks[i];
      assert forall j :: i < j < |front| ==> front[j] == tasks[j];
      ScheduleValue(parse, front, now, i);
    }
  }

  /** With distinct ids, each eligible task's entry is its own delay. */
  lemma ScheduleValueUnique(parse: DateParser, tasks: seq<Task>, now: int, i: nat)
    requires UniqueIds(tasks)
    requires i < |tasks| && ReminderDelay(parse, tasks[i], now).Some?
    ensures tasks[i].id in Schedule(parse, tasks, now)
    ensures Schedule(parse, tasks, now)[tasks[i].id] == ReminderDelay(parse, tasks[i], now).value
  {
    ScheduleValue(parse, tasks, now, i);
  }

  /** Whenever the table is rebuilt, a timer is meant to fire at the task's
      reminder instant: rebuild time plus delay does not depend on the rebuild time. */
  lemma FireInstantFixed(parse: DateParser, t: Task, now: int)
    requires ReminderDelay(parse, t, now).Some?
    ensures ReminderAt(parse, t).Some?
    ensures now + ReminderDelay(parse, t, now).value == ReminderAt(parse, t).value
  {
  }

  /** With distinct ids, a rebuild `e` ms later finds the same timers, each
      `e` ms shorter, minus those whose instant has passed meanwhile: missed
      reminders are never back-filled. */
  lemma {:induction false} ScheduleLater(parse: DateParser, tasks: seq<Task>, now: int, e: nat)
    requires UniqueIds(tasks)
    ensures Schedule(parse, tasks, now + e).Keys <= Schedule(parse, tasks, now).Keys
    ensures forall k :: k in Schedule(parse, tasks, now + e) ==>
      Schedule(parse, tasks, now + e)[k] == Schedule(parse, tasks, now)[k] - e
    decreases |tasks|
  {
    if tasks != [] {
      var front := tasks[..|tasks| - 1];
      var t := tasks[|tasks| - 1];
      assert UniqueIds(front) by {
        assert forall i :: 0 <= i < |front| ==> front[i] == tasks[i];
      }
      ScheduleLater(parse, front, now, e);
      var d1 := ReminderDelay(parse, t, now);
      var d2 := ReminderDelay(parse, t, now + e);
      assert d2.Some? ==> d1.Some? && d2.value == d1.value - e;
      if d1.Some? && d2.None? {
        ScheduleDomain(parse, front, now + e, t.id);
        assert t.id !in Schedule(parse, front, now + e);
      }
    }
  }

  /** A quest due at `due` with a 15-minute reminder: a rebuild 20 minutes
      before sets a 5-minute timer; a rebuild 10 minutes before sets none. */
  lemma FifteenMinuteExample(parse: DateParser, t: Task, due: int)
    requires !t.completed && t.reminderMinutes == Some(15)
    requires BuildDateTime(parse, t.date, t.time) == Some(due)
    ensures ReminderAt(parse, t) == Some(due - 15 * MsPerMinute)
    ensures ReminderDelay(parse, t, due - 20 * MsPerMinute) == Some(5 * MsPerMinute)
    ensures ReminderDelay(parse, t, due - 10 * MsPerMinute).None?
  {
  }

}

=== FILE: status.dfy ===
/** What a task card shows about time and reward: the "Overdue" and "Due soon"
    chips, computed against the instant the list renders, and the reward text. */
module Status {
  import opened Optional
  import opened Decimal
  import opened Clock
  import opened Quest
  import opened Scheduler
  import opened Engine

  /** One hour: the "due soon" horizon. */
  const SoonWindowMs: int := 60 * 60 * 1000

  /** Milliseconds until the due instant, None without a valid due instant. */
  function TimeLeft(parse: DateParser, t: Task, now: int): Option<int> {
    match BuildDateTime(parse, t.date, t.time)
    case None => None
    case Some(due) => Some(due - now)
  }

  /** The "Overdue" chip. */
  predicate IsOverdue(parse: DateParser, t: Task, now: int): (b: bool)
    ensures b <==> !t.completed && BuildDateTime(parse, t.date, t.time).Some?
                   && BuildDateTime(parse, t.date, t.time).value < now
  {
    !t.completed && TimeLeft(parse, t, now).Some? && TimeLeft(parse, t, now).value < 0
  }

  /** The "Due soon" chip. */
  predicate IsSoon(parse: DateParser, t: Task, now: int): (b: bool)
    ensures b <==> !t.completed && BuildDateTime(parse, t.date, t.time).Some?
                   && now < BuildDateTime(parse, t.date, t.time).value <= now + SoonWindowMs
  {
    && !t.completed
    && TimeLeft(parse, t, now).Some?
    && 0 < TimeLeft(parse, t, now).value <= SoonWindowMs
  }

  /** No card shows both chips. */
  lemma ChipsExclusive(parse: DateParser, t: Task, now: int)
    ensures !(IsOverdue(parse, t, now) && IsSoon(parse, t, now))
  {
  }

  /** Finished quests, quests without a valid due instant, and quests due at
      exactly this instant show neither chip. */
  lemma NoChip(parse: DateParser, t: Task, now: int)
    requires t.completed || BuildDateTime(parse, t.date, t.time).None? ||
      BuildDateTime(parse, t.date, t.time) == Some(now)
    ensures !IsOverdue(parse, t, now) && !IsSoon(parse, t, now)
  {
  }

  /** An overdue quest never has a reminder timer pending: its reminder
      instant (at or before the due instant) has passed too. */
  lemma OverdueHasNoTimer(parse: DateParser, t: Task, now: int)
    requires IsOverdue(parse, t, now)
    requires t.reminderMinutes.Some? ==> t.reminderMinutes.value >= 0
    ensures ReminderDelay(parse, t, now).None?
  {
  }

  /** A quest due within the hour has no pending timer for a reminder set an
      hour or more ahead; one set "at start time" is pending and fires exactly
      when the quest falls due. */
  lemma SoonReminders(parse: DateParser, t: Task, now: int)
    requires IsSoon(parse, t, now)
    ensures t.reminderMinutes.Some? && t.reminderMinutes.value >= 60 ==>
      ReminderDelay(parse, t, now).None?
    ensures t.reminderMinutes == Some(0) ==>
      ReminderDelay(parse, t, now) == TimeLeft(parse, t, now)
  {
  }

  /** The reward text on a task card. */
  function RewardLabel(t: Task, xpPerComplete: int): (r: string)
    ensures r == "Completed" <==> t.completed
  {
    if t.completed then "Completed"
    else
      var text := "+" + IntToString(xpPerComplete) + " XP";
      assert text[0] == '+';
      text
  }

  /** The reward an open quest advertises is exactly the XP that completing
      it adds; a finished quest advertises none. */
  lemma RewardLabelIsHonest(s: State, id: int, now: int)
    requires FirstIndex(s.tasks, id).Some?
    ensures var t := s.tasks[FirstIndex(s.tasks, id).value];
      !t.completed ==>
        RewardLabel(t, XpPerComplete) == "+" + IntToString(ToggleTask(s, id, now).xp - s.xp) + " XP"
    ensures var t := s.tasks[FirstIndex(s.tasks, id).value];
      t.completed ==> RewardLabel(t, XpPerComplete) == "Completed"
  {
  }

}

=== FILE: storage.dfy ===
/** Start-up loading and auto-saving of the engine state through a key-value
    store holding the keys `tasks`, `xp`, `streak` and `lastCompletedDate`. */
module Storage {
  import opened Optional
  import opened Quest

  /** A key's value after `JSON.parse`: the parse threw, or it produced a
      value, which is None when it is absent (parsed as null) or fails the
      key's type test. */
  datatype Read<T> = Unparseable | Parsed(value: Option<T>)

  /** What the store holds: None for a key never written. */
  datatype Store = Store(
    tasks: Option<seq<Task>>,
    xp: Option<int>,
    streak: Option<int>,
    lastCompletedDate: Option<int>)

  /** The load effect. Every parse runs before any value is taken, so one
      that throws leaves the whole state at its defaults; otherwise each key
      falls back to its default on its own. `lastDate` is the raw stored day,
      None when absent or empty; toasts are never stored. */
  function Load(tasks: Read<seq<Task>>, xp: Read<int>, streak: Read<int>, lastDate: Option<int>): (s: State)
    ensures tasks.Unparseable? || xp.Unparseable? || streak.Unparseable? ==> s == Initial
    ensures tasks.Parsed? && xp.Parsed? && streak.Parsed? ==>
      && (tasks.value.Some? ==> s.tasks == tasks.value.value)
      && (tasks.value.None? ==> s.tasks == [])
      && (xp.value.Some? ==> s.xp == xp.value.value)
      && (xp.value.None? ==> s.xp == 0)
      && (streak.value.Some? ==> s.streak == streak.value.value)
      && (streak.value.None? ==> s.streak == 0)
      && s.lastCompletedDate == lastDate
    ensures s.activeReminders == []
  {
    if tasks.Unparseable? || xp.Unparseable? || streak.Unparseable? then Initial
    else
      State(
        match tasks.value case Some(ts) => ts case None => [],
        match xp.value case Some(n) => n case None => 0,
        match streak.value case Some(n) => n case None => 0,
        lastDate,
        [])
  }

  /** Loading from a store whose values were written by the app itself. */
  function ReadStore(store: Store): State {
    Load(Parsed(store.tasks), Parsed(store.xp), Parsed(store.streak), store.lastCompletedDate)
  }

  /** The save effects: tasks, XP and streak are always written; the
      completion day only when there is one, so an old one stays otherwise. */
  function Save(store: Store, s: State): (r: Store)
    ensures store.lastCompletedDate.Some? ==> r.lastCompletedDate.Some?
    ensures r.lastCompletedDate.Some? ==>
      r.lastCompletedDate == s.lastCompletedDate || r.lastCompletedDate == store.lastCompletedDate
  {
    Store(
      Some(s.tasks),
      Some(s.xp),
      Some(s.streak),
      if s.lastCompletedDate.Some? then s.lastCompletedDate else store.lastCompletedDate)
  }

  /** Saving then loading gives back the state without its toasts, unless a
      stale completion day is left in the store. */
  lemma SaveLoadRoundTrip(store: Store, s: State)
    ensures s.lastCompletedDate.Some? || store.lastCompletedDate.None? ==>
      ReadStore(Save(store, s)) == s.(activeReminders := [])
    ensures s.lastCompletedDate.None? ==>
      ReadStore(Save(store, s)).lastCompletedDate == store.lastCompletedDate
  {
  }

  /** A store never written loads as the initial state. */
  lemma EmptyStoreLoadsInitial()
    ensures ReadStore(Store(None, None, None, None)) == Initial
  {
  }

}
